=== FILE: README.md ===
# Credential switching and the LLM factory of CrewAI-Studio

CrewAI-Studio builds LLM clients for crews and agents through one factory,
`create_llm("<provider>: <model>", temperature)` in `app/llms.py`. Every
vendor SDK reads its credentials from process environment variables, so the
factory keeps a per-session snapshot of the credential variables
(`st.session_state.env_vars`), switches the variables a provider needs into
the environment before building its client, and afterwards writes the
snapshot back over the environment.

This project models that protocol in Dafny and proves what it does:

- `wrappers.dfy`: `Option` and `Result`.
- `strings.dfy`: Python's `str.split(sep)`, with the facts the factory relies on:
  - the number of parts;
  - splitting `provider + ": " + model` gives exactly the two halves.
- `environment.dfy`: the environment and the snapshot (`State`), covering:
  - `load_secrets_fron_env`;
  - `switch_environment`, as a fold over the override dict's items;
  - `restore_environment`, both as a reference function and as the loop the source runs;
  - `safe_pop_env_var`.
- `providers.dfy`: the six `create_*_llm` constructors.
  - A constructor returns the state it leaves behind together with either a client or the exception it raises.
  - A Python exception does not undo the environment writes made before it, so the state is returned in both cases.
  - Vendor clients are records of the arguments they receive.
- `registry.dfy`: `LLM_CONFIG`, `llm_providers_and_models` and `create_llm`.
- `properties.dfy`: properties of whole `create_llm` calls:
  - dispatch;
  - which providers leave the environment as they found it;
  - the persistence of the local-provider sentinels;
  - the skipped restore on an exception;
  - how the catalogue's selectors parse back.

Terms used below:

- **Snapshot**: the session's map from credential variable to optional value.
- **Agrees**: the environment shows the snapshot's value for every snapshot key. A key whose value is `None` is absent from the environment.
- **Pulled**: each named key now reads as its snapshot value if that value is set, otherwise as the environment's own value. All other keys are unchanged.
- **Sentinel**: the placeholder API key (`"ollama"`, `"lm-studio"`) that the local providers put in `OPENAI_API_KEY`.

## Behaviour worth knowing

Each of these follows from the code as written, and the model keeps it.

- A whole call does not always leave the environment equal to its state before the call.
  - It is guaranteed only for OpenAI, Anthropic, Groq and Google, started from a state that agrees with its snapshot (`Properties.KeyBasedLeavesStateUnchanged`).
  - Ollama and LM Studio write their sentinel key into the snapshot as well as the environment. Ollama also writes its host there whenever the host is set (`Properties.OllamaSentinelPersists`). LM Studio writes its base only when `LMSTUDIO_API_BASE` is set (`Providers.CreateLmStudio`). So their first selection changes the snapshot; a repeat Ollama selection that finds the same values already there changes nothing (`Properties.OllamaRepeatChangesNothing`).
  - So the restore reinstates those values instead of undoing them, and a later OpenAI selection receives the Ollama host as its base URL (`Properties.OllamaCredentialsReachOpenAI`).
- A freshly loaded session disagrees with its snapshot whenever `OPENAI_API_BASE` is unset, which is the default: the snapshot records the public endpoint, and the environment lacks the variable (`Environment.FreshLoadDisagrees`). Agreement holds only after the first successful call, whose restore writes that base into the environment. So the first call changes the environment even for a key-based provider (`Properties.FirstAnthropicCallChangesEnv`).
- The restore runs only when the constructor returns. After an exception the environment stays as the constructor left it. No constructor breaks agreement (`Registry.CreateLlmKeepsInvariants`), so the only disagreement left after an exception is one the state already had; the skipped restore just leaves it unrepaired (`Properties.LmStudioErrorSkipsRestore`).
- LM Studio with no `LMSTUDIO_API_BASE` does not fail outright. Its switch skips the `None` base, so it connects to whatever `OPENAI_API_BASE` the environment holds (`Properties.LmStudioFallsBackToOpenAIBase`).
- A selector without exactly one `": "` fails when the split is unpacked into two names, before any lookup.

## Model

| member | source | states |
|---|---|---|
| Strings.Split | app/llms.py:156 | `str.split(sep)` always yields at least one part, no part contains the separator, and joining the parts with the separator gives back the input. |
| Strings.SplitCount | app/llms.py:156 | The split yields one more part than the separator has non-overlapping occurrences, so the two-name unpack succeeds exactly when `": "` occurs once. |
| Strings.SplitWithoutSeparator | app/llms.py:127 | A string without the separator splits into itself alone. |
| Strings.NoColonNoSeparator | app/llms.py:125-150 | A name without `':'`, like every `LLM_CONFIG` key, cannot contain `": "`. |
| Strings.SplitPair | app/llms.py:153-156 | For a provider name and a model that are both free of `": "`, splitting `f"{provider}: {model}"` gives back exactly `[provider, model]`. |
| Environment.LoadSecrets | app/llms.py:10-23 | The `.env` values override the environment, and no other variable changes. An existing session snapshot is kept unchanged. A fresh snapshot has exactly the seven credential keys, each read from the updated environment, and `OPENAI_API_BASE` defaults to the public OpenAI endpoint. |
| Environment.LoadSecretsIdempotent | app/llms.py:10-23 | Loading the secrets again, with the same `.env` and the session just created, changes nothing. |
| Environment.LoadSecretsWellFormed | app/llms.py:12-21 | After loading, the snapshot names every credential a constructor reads. |
| Environment.FreshLoadDisagrees | app/llms.py:10-18 | A fresh load with `OPENAI_API_BASE` unset records the public endpoint in the snapshot but not in the environment, so the session starts out disagreeing. |
| Environment.LookupAt | app/llms.py:26 | In a dict, the value looked up for an item's key is that item's value. |
| Environment.LookupAbsent | app/llms.py:26 | A key the dict does not hold looks up to `None`. |
| Environment.Written | app/llms.py:26-29 | The overrides that will be written are exactly the dict keys whose value is not `None`. |
| Environment.Switch | app/llms.py:25-29 | `switch_environment` writes every non-`None` override into both the environment and the snapshot, as a map union. `None` values and keys that are not overridden are left untouched. |
| Environment.SwitchPointwise | app/llms.py:26-29 | Item by item: each non-`None` value lands in both maps, and every key the dict does not assign keeps its old entry in both. |
| Environment.SwitchKeyAndBase | app/llms.py:100-103 | Switching a key and a base URL sets both, in both maps. |
| Environment.SwitchKeyOnly | app/llms.py:109-112 | Switching a key with a `None` base sets only the key; the base keeps its old value, or stays absent, in both maps. |
| Environment.SwitchPreservesAgreement | app/llms.py:25-29 | A switch keeps an environment that agrees with the snapshot in agreement. |
| Environment.SwitchFromSnapshot | app/llms.py:42-45 | Switching to values taken from the snapshot leaves the snapshot unchanged and pulls those values into the environment. |
| Environment.WrittenFromSnapshot | app/llms.py:42-45 | Writing values that were read from the snapshot back into it leaves the snapshot unchanged. |
| Environment.UnassignedKey | app/llms.py:26-27 | A dict key whose value is `None` is never written. |
| Environment.Restore | app/llms.py:31-36 | `restore_environment` makes the environment agree with the snapshot. It leaves the snapshot and every variable outside it unchanged. |
| Environment.RestoreAgreeing | app/llms.py:31-36 | Restoring an environment that already agrees with the snapshot changes nothing. |
| Environment.RestoreIdempotent | app/llms.py:31-36 | Restoring twice is the same as restoring once. |
| Environment.RestoreShows | app/llms.py:32-36 | After a restore, each snapshot key reads in the environment exactly as the snapshot holds it. |
| Environment.RestoreEnvironment | app/llms.py:31-36 | The key-by-key loop of `restore_environment` computes the same environment as `Restore`. |
| Environment.SafePopEnvVar | app/llms.py:38-39 | After the pop the key is absent and every other variable is unchanged. Popping an absent key is a no-op. |
| Providers.CreateOpenAI | app/llms.py:41-52 | A missing snapshot entry raises `KeyError` with no change. Otherwise the key and base are pulled into the environment, and the call succeeds iff the resulting key is non-empty. On success the client gets that model, temperature and base URL; otherwise the OpenAI message is raised. |
| Providers.CreateAnthropic | app/llms.py:54-68 | A missing snapshot entry raises `KeyError`. Otherwise the key is pulled, and the call succeeds iff the key is non-empty, with the key, the model and `max_tokens=4095`. Failure raises the Anthropic message. |
| Providers.CreateGroq | app/llms.py:70-79 | Same shape as Anthropic, producing a `ChatGroq` with `max_tokens=4095`. Failure raises the Groq message. |
| Providers.CreateGoogle | app/llms.py:81-95 | Same shape, producing a Gemini client that converts system messages to human ones. Failure raises the Google message. |
| Providers.CreateOllama | app/llms.py:97-106 | With an empty or unset host it raises and changes nothing. Otherwise it writes the `"ollama"` sentinel key and the host into the environment and the snapshot, and returns a client aimed at the host. |
| Providers.CreateLmStudio | app/llms.py:108-123 | It writes the `"lm-studio"` sentinel, and the LM Studio base if there is one, before any check. It then succeeds iff the base URL in use is non-empty; without an LM Studio base, that URL is the environment's `OPENAI_API_BASE`. |
| Providers.LmStudioIgnoresModel | app/llms.py:108-123 | The LM Studio outcome does not depend on the model requested. |
| Registry.LlmConfig | app/llms.py:125-150 | `LLM_CONFIG` has the six providers in declared order, each with its configured models. |
| Registry.RegistryNames | app/llms.py:125-150 | Every provider is registered, provider names are distinct, and no name contains `':'`. |
| Registry.FindIn | app/llms.py:157 | The search returns a provider with the given name from the list, or `None` only when the list has none. |
| Registry.FindProvider | app/llms.py:157-159 | `LLM_CONFIG.get(name)` finds provider `p` exactly when `p`'s name is `name`. |
| Registry.Catalogue | app/llms.py:152-153 | The catalogue has as many selectors as all entries have models. Its contract states only this length; where each selector sits is stated by `Registry.CatalogueAt`. |
| Registry.LlmProvidersAndModels | app/llms.py:152-153 | `llm_providers_and_models()` offers exactly as many selectors as the six providers have models together. |
| Registry.EveryModelOffered | app/llms.py:152-153 | Every model configured for any provider is offered as `"<provider>: <model>"`. |
| Registry.Models | app/llms.py:125-150 | A set `OPENAI_PROXY_MODELS` or `OLLAMA_MODELS` becomes its comma-separated parts: none contains a comma, and they join back to the variable's value. An unset or empty `OLLAMA_MODELS` gives no models. Every other provider offers at least one model. |
| Registry.Construct | app/llms.py:128-148 | Each entry's `create_llm` builds that provider's own client kind. It fails only with the missing-credential `ValueError` or a `KeyError` on the snapshot. |
| Registry.Finish | app/llms.py:160-162 | The environment is restored only after a client is returned; an exception skips it and leaves everything as the constructor left it. Restoring keeps the result and the snapshot, and leaves the environment agreeing with the snapshot. |
| Registry.CatalogueAt | app/llms.py:152-153 | The `j`th model of entry `i` appears right after the models of the earlier entries: registry order first, then model order. |
| Registry.CatalogueMember | app/llms.py:152-153 | Every selector in the catalogue is some entry's provider name joined to one of that entry's models. |
| Registry.CatalogueAppend | app/llms.py:152-153 | The catalogue of two lists of entries is one catalogue followed by the other. |
| Registry.CatalogueSkipsEmpty | app/llms.py:152-153 | An entry with no models contributes nothing. |
| Registry.OllamaUnsetOffersNothing | app/llms.py:138-141 | With `OLLAMA_MODELS` unset or empty, no selector names Ollama. |
| Registry.CreateLlm | app/llms.py:155-164 | The temperature defaults to 0.15. The unpack fails iff the selector does not contain `": "` exactly once, and then nothing changes. An unknown provider changes nothing and matches no registered name. |
| Registry.CreateLlmKeepsInvariants | app/llms.py:155-164 | A returned client leaves the environment agreeing with the snapshot, and a state that agrees keeps agreeing. A snapshot that names every credential keeps naming them, and then `KeyError` is never raised. |
| Registry.ConstructKeepsAgreement | app/llms.py:41-123 | No constructor raises the unpack or lookup errors. Each keeps agreement and keeps every snapshot key, and none raises `KeyError` on a well-formed snapshot. |
| Properties.CreateLlmDispatch | app/llms.py:155-162 | `create_llm` on `"<provider>: <model>"` runs exactly that provider's constructor with exactly that model, then restores on success. |
| Properties.CreateLlmResult | app/llms.py:155-162 | `create_llm` returns what the constructor returned. After an exception the state is the one the constructor left. |
| Properties.UnknownProviderChangesNothing | app/llms.py:155-164 | An unregistered provider name raises the lookup error and leaves everything unchanged. |
| Properties.CatalogueSelectorsParse | app/llms.py:152-157 | Every catalogue selector is a registered provider's name joined to one of its models. When the model has no `": "`, the selector splits back into that name and model, and the lookup finds that provider. |
| Properties.KeyBasedLeavesStateUnchanged | app/llms.py:41-95 | From an agreeing state, an OpenAI, Anthropic, Groq or Google selection leaves environment and snapshot exactly as they were, whether it returns or raises. |
| Properties.PulledAgreeingIsIdentity | app/llms.py:25-29 | Pulling snapshot values into an environment that already shows them changes nothing. |
| Properties.OllamaSentinelPersists | app/llms.py:97-104 | After a successful Ollama selection, the sentinel key and the host are in the snapshot and the environment, even after the restore. |
| Properties.SelectOllama | app/llms.py:155-162 | Selecting Ollama runs `create_ollama_llm` and then restores on success. |
| Properties.OllamaThenRestore | app/llms.py:97-104 | The Ollama constructor followed by the restore returns a client aimed at the host, and leaves the sentinel key and the host in both the snapshot and the environment. |
| Properties.OllamaRepeatChangesNothing | app/llms.py:155-164 | Selecting Ollama again from an agreeing state whose snapshot already holds the sentinel and the host leaves the state exactly as it was. |
| Properties.OllamaRepeatKeepsState | app/llms.py:97-106 | Under the same conditions, the Ollama constructor itself leaves the state unchanged. |
| Properties.OllamaCredentialsReachOpenAI | app/llms.py:41-50 | After an Ollama selection, an OpenAI selection succeeds with a client aimed at the Ollama host. |
| Properties.LmStudioFallsBackToOpenAIBase | app/llms.py:108-121 | From an agreeing state with no LM Studio base, LM Studio connects to the snapshot's `OPENAI_API_BASE`. |
| Properties.LmStudioUsesEnvironmentBase | app/llms.py:108-121 | Without its own base, the LM Studio constructor returns a client aimed at the environment's `OPENAI_API_BASE`. |
| Properties.LmStudioErrorSkipsRestore | app/llms.py:108-123 | Right after loading from an environment with no `OPENAI_API_BASE` and no `LMSTUDIO_API_BASE`, the session already disagrees and LM Studio raises. The `"lm-studio"` key is written to both maps. The skipped restore leaves the missing `OPENAI_API_BASE` unrepaired, so the state still disagrees. |
| Properties.LmStudioWithoutAnyBase | app/llms.py:108-123 | With no LM Studio base and an `OPENAI_API_BASE` that the snapshot records but the environment lacks, the state already disagrees. LM Studio raises after its switch: the sentinel key goes into both maps, the base stays missing, and the state still disagrees. |
| Properties.OpenAIDefaultBase | app/llms.py:15 | With only an OpenAI key configured, a freshly loaded session builds an OpenAI client aimed at the public endpoint. |
| Properties.FirstAnthropicCallChangesEnv | app/llms.py:155-164 | From a fresh session with `OPENAI_API_BASE` unset and an Anthropic key, the first Anthropic selection succeeds. It leaves an agreeing state whose environment now holds `OPENAI_API_BASE`, so the environment differs from before the call. |
| Properties.AnthropicWithKey | app/llms.py:54-68 | With a non-empty Anthropic key in the snapshot, selecting Anthropic succeeds and leaves the snapshot unchanged. |
| Properties.AnthropicMissingKey | app/llms.py:54-68 | With no Anthropic key anywhere, a freshly loaded session raises the Anthropic message. |

## Left out

- Streamlit session state is an explicit `Option<Snapshot>` parameter. The `AttributeError` a constructor raises when the session was never initialised is not modelled; the model starts from a state that has a snapshot.
- `load_dotenv(override=True)`: parsing the `.env` file is not modelled. Its contents are a parameter map applied over the environment.
- The vendor client classes (`LLM`, `ChatOpenAI`, `ChatAnthropic`, `ChatGroq`, `ChatGoogleGenerativeAI`) are foreign code. Each is a record of the constructor arguments it receives.
- The temperature is a `real` passed through unchanged; the source's floating point is not modelled.
- `OPENAI_PROXY_MODELS` and `OLLAMA_MODELS` are read once, when the module is imported. They are a `ModelConfig` parameter to `LlmConfig` rather than an environment read.
- The process environment is shared by every session and thread. Concurrency between sessions is not modelled: each call is atomic on one state.
- The `ValueError` messages are kept verbatim for the constructors. The unknown-provider error carries the provider name instead of the formatted sentence.
- Selectors whose model part itself contains `": "` are outside the `Properties` lemmas. The source's unpack fails on them, and `Registry.CreateLlm` states that case.

=== FILE: environment.dfy ===
/**
 * The process environment, the session's credential snapshot, and the
 * switch / restore protocol that keeps the two reconciled around every
 * client construction (app/llms.py:10-39).
 */
module Environment {
  import opened Wrappers

  /** `os.environ`: variable name to value. */
  type Env = map<string, string>

  /** `st.session_state.env_vars`: credential name to a value or `None`. */
  type Snapshot = map<string, Option<string>>

  /** The two pieces of global state every operation reads and writes. */
  datatype State = State(env: Env, snap: Snapshot)

  /**
   * The items of a Python dict of overrides, in insertion order; a dict
   * never repeats a key (see `IsDict`).
   */
  type Overrides = seq<(string, Option<string>)>

  const OpenAIKey: string := "OPENAI_API_KEY"
  const OpenAIBase: string := "OPENAI_API_BASE"
  const GroqKey: string := "GROQ_API_KEY"
  const LmStudioBase: string := "LMSTUDIO_API_BASE"
  const AnthropicKey: string := "ANTHROPIC_API_KEY"
  const OllamaHost: string := "OLLAMA_HOST"
  const GoogleKey: string := "GOOGLE_API_KEY"

  /** The value OPENAI_API_BASE takes in a fresh snapshot when it is unset. */
  const DefaultOpenAIBase: string := "https://api.openai.com/v1/"

  /** The credentials a fresh snapshot records. */
  const CredentialKeys: set<string> :=
    {OpenAIKey, OpenAIBase, GroqKey, LmStudioBase, AnthropicKey, OllamaHost, GoogleKey}

  /** `os.getenv(key)`. */
  function Getenv(env: Env, key: string): Option<string> {
    if key in env then Some(env[key]) else None
  }

  /** Python truthiness of an optional string: present and non-empty. */
  predicate Truthy(v: Option<string>) {
    v.Some? && v.value != ""
  }

  /** `a` and `b` agree on key `k`: both lack it or both map it to the same value. */
  predicate SameAt<V(==)>(a: map<string, V>, b: map<string, V>, k: string) {
    (k in a <==> k in b) && (k in a ==> a[k] == b[k])
  }

  /** The environment shows the snapshot's view of `k`. */
  predicate Reflects(env: Env, snap: Snapshot, k: string)
    requires k in snap
  {
    match snap[k]
    case Some(v) => k in env && env[k] == v
    case None => k !in env
  }

  /** The environment shows the snapshot's view of every snapshot key. */
  predicate Agrees(s: State) {
    forall k :: k in s.snap ==> Reflects(s.env, s.snap, k)
  }

  /** Every credential a constructor reads is present in the snapshot. */
  predicate WellFormed(snap: Snapshot) {
    CredentialKeys <= snap.Keys
  }

  // ---------------------------------------------------------------------
  // Initialisation (load_secrets_fron_env)
  // ---------------------------------------------------------------------

  /** The snapshot built from the environment the first time the session loads. */
  function InitialSnapshot(env: Env): Snapshot {
    map[
      OpenAIKey := Getenv(env, OpenAIKey),
      OpenAIBase := Some(if OpenAIBase in env then env[OpenAIBase] else DefaultOpenAIBase),
      GroqKey := Getenv(env, GroqKey),
      LmStudioBase := Getenv(env, LmStudioBase),
      AnthropicKey := Getenv(env, AnthropicKey),
      OllamaHost := Getenv(env, OllamaHost),
      GoogleKey := Getenv(env, GoogleKey)
    ]
  }

  /**
   * `load_secrets_fron_env`: the variables read from the `.env` file
   * (`dotenv`) override the environment on every call; the snapshot is
   * built from the resulting environment only when the session has none.
   */
  function LoadSecrets(env: Env, dotenv: Env, session: Option<Snapshot>): (r: State)
    ensures forall k :: k in dotenv ==> k in r.env && r.env[k] == dotenv[k]
    ensures forall k :: k !in dotenv ==> SameAt(env, r.env, k)
    ensures session.Some? ==> r.snap == session.value
    ensures session.None? ==> r.snap.Keys == CredentialKeys
    ensures session.None? ==>
      forall k :: k in CredentialKeys && k != OpenAIBase ==> r.snap[k] == Getenv(r.env, k)
    ensures session.None? ==>
      r.snap[OpenAIBase] == Some(if OpenAIBase in r.env then r.env[OpenAIBase] else DefaultOpenAIBase)
  {
    var e := env + dotenv;
    match session
    case Some(snap) => State(e, snap)
    case None => State(e, InitialSnapshot(e))
  }

  /** Loading again, with the same `.env` contents, changes nothing. */
  lemma LoadSecretsIdempotent(env: Env, dotenv: Env, session: Option<Snapshot>)
    ensures var r := LoadSecrets(env, dotenv, session);
      LoadSecrets(r.env, dotenv, Some(r.snap)) == r
  {
    var r := LoadSecrets(env, dotenv, session);
    assert r.env + dotenv == r.env;
  }

  /**
   * A fresh load with OPENAI_API_BASE unset does not agree: the snapshot
   * records the default base, which the environment does not hold.
   */
  lemma FreshLoadDisagrees(env: Env, dotenv: Env)
    requires OpenAIBase !in env && OpenAIBase !in dotenv
    ensures var r := LoadSecrets(env, dotenv, None);
      && OpenAIBase !in r.env
      && OpenAIBase in r.snap && r.snap[OpenAIBase] == Some(DefaultOpenAIBase)
      && !Agrees(r)
  {
    var r := LoadSecrets(env, dotenv, None);
    assert !Reflects(r.env, r.snap, OpenAIBase);
  }

  /** A fresh snapshot names every credential. */
  lemma LoadSecretsWellFormed(env: Env, dotenv: Env, session: Option<Snapshot>)
    requires session.Some? ==> WellFormed(session.value)
    ensures WellFormed(LoadSecrets(env, dotenv, session).snap)
  {
  }

  // ---------------------------------------------------------------------
  // switch_environment
  // ---------------------------------------------------------------------

  /** No key occurs twice among the items, as in any Python dict. */
  predicate IsDict(o: Overrides) {
    forall i, j :: 0 <= i < j < |o| ==> o[i].0 != o[j].0
  }

  /** Some override gives `k` a value that is not `None`. */
  predicate Assigns(o: Overrides, k: string) {
    exists i :: 0 <= i < |o| && o[i].0 == k && o[i].1.Some?
  }

  /** The keys an override dict names. */
  function KeysOf(o: Overrides): set<string> {
    set i | 0 <= i < |o| :: o[i].0
  }

  /** `o.get(k)`: the value the dict gives `k`, `None` when it names no such key. */
  function Lookup(o: Overrides, k: string): Option<string>
    decreases |o|
  {
    if |o| == 0 then None else if o[0].0 == k then o[0].1 else Lookup(o[1..], k)
  }

  /** In a dict, looking up an item's key finds that item's value. */
  lemma {:induction false} LookupAt(o: Overrides, i: int)
    requires IsDict(o)
    requires 0 <= i < |o|
    ensures Lookup(o, o[i].0) == o[i].1
    decreases |o|
  {
    if i > 0 {
      assert o[0].0 != o[i].0;
      assert o[1..][i - 1] == o[i];
      LookupAt(o[1..], i - 1);
    }
  }

  /** A key the dict does not name looks up to `None`. */
  lemma {:induction false} LookupAbsent(o: Overrides, k: string)
    requires k !in KeysOf(o)
    ensures Lookup(o, k) == None
    decreases |o|
  {
    if |o| > 0 {
      assert o[0].0 in KeysOf(o);
      assert KeysOf(o[1..]) <= KeysOf(o) by {
        forall x | x in KeysOf(o[1..]) ensures x in KeysOf(o) {
          var j :| 0 <= j < |o[1..]| && o[1..][j].0 == x;
          assert o[j + 1].0 == x;
        }
      }
      LookupAbsent(o[1..], k);
    }
  }

  /** The variables an override dict writes, with the values it writes. */
  function Written(o: Overrides): (w: map<string, string>)
    requires IsDict(o)
    ensures forall k :: k in w <==> Assigns(o, k)
  {
    var w := map k | k in KeysOf(o) && Lookup(o, k).Some? :: Lookup(o, k).value;
    assert forall k :: k in w <==> Assigns(o, k) by {
      forall k ensures k in w <==> Assigns(o, k) {
        if k in w {
          var i :| 0 <= i < |o| && o[i].0 == k;
          LookupAt(o, i);
        }
        if Assigns(o, k) {
          var i :| 0 <= i < |o| && o[i].0 == k && o[i].1.Some?;
          LookupAt(o, i);
        }
      }
    }
    w
  }

  /** A map of written values, as snapshot entries. */
  function Lift(w: map<string, string>): (r: Snapshot)
    ensures r.Keys == w.Keys
    ensures forall k :: k in w ==> r[k] == Some(w[k])
  {
    map k | k in w :: Some(w[k])
  }

  /** Dropping the first item of a dict leaves a dict without its key. */
  lemma WrittenTail(o: Overrides)
    requires IsDict(o) && |o| > 0
    ensures IsDict(o[1..])
    ensures o[0].0 !in Written(o[1..])
    ensures Written(o) ==
      if o[0].1.Some? then Written(o[1..])[o[0].0 := o[0].1.value] else Written(o[1..])
  {
    var t := o[1..];
    assert forall i :: 0 <= i < |t| ==> t[i] == o[i + 1];
    var k0 := o[0].0;
    assert k0 !in KeysOf(t) by {
      forall j | 0 <= j < |t| ensures t[j].0 != k0 {
        assert t[j] == o[j + 1];
      }
    }
    LookupAbsent(t, k0);
    assert KeysOf(o) == {k0} + KeysOf(t) by {
      forall x | x in KeysOf(o) ensures x in {k0} + KeysOf(t) {
        var j :| 0 <= j < |o| && o[j].0 == x;
        if j > 0 { assert t[j - 1].0 == x; }
      }
      forall x | x in KeysOf(t) ensures x in KeysOf(o) {
        var j :| 0 <= j < |t| && t[j].0 == x;
        assert o[j + 1].0 == x;
      }
    }
    assert forall k :: k != k0 ==> Lookup(o, k) == Lookup(t, k);
  }

  /** Writing a key first and a map without it afterwards is one union. */
  lemma UpdateThenUnion<V>(m: map<string, V>, k: string, v: V, w: map<string, V>)
    requires k !in w
    ensures m[k := v] + w == m + w[k := v]
  {
  }

  /**
   * `switch_environment`: every item whose value is not `None` is written,
   * in order, to both the environment and the snapshot.
   */
  function Switch(s: State, o: Overrides): (r: State)
    requires IsDict(o)
    ensures r.env == s.env + Written(o)
    ensures r.snap == s.snap + Lift(Written(o))
    decreases |o|
  {
    if |o| == 0 then
      assert Written(o) == map[];
      s
    else
      WrittenTail(o);
      var (k, v) := o[0];
      var w := Written(o[1..]);
      match v
      case Some(x) =>
        UpdateThenUnion(s.env, k, x, w);
        UpdateThenUnion(s.snap, k, Some(x), Lift(w));
        assert Lift(w)[k := Some(x)] == Lift(w[k := x]);
        Switch(State(s.env[k := x], s.snap[k := v]), o[1..])
      case None =>
        Switch(s, o[1..])
  }

  /** The value a dict writes for one of its items. */
  lemma WrittenAt(o: Overrides, i: int)
    requires IsDict(o)
    requires 0 <= i < |o| && o[i].1.Some?
    ensures o[i].0 in Written(o) && Written(o)[o[i].0] == o[i].1.value
  {
    LookupAt(o, i);
  }

  /** A two-item dict literal: its keys, and what it writes. */
  lemma PairOverrides(k1: string, v1: Option<string>, k2: string, v2: Option<string>)
    requires k1 != k2
    ensures IsDict([(k1, v1), (k2, v2)])
    ensures KeysOf([(k1, v1), (k2, v2)]) == {k1, k2}
    ensures Written([(k1, v1), (k2, v2)]) ==
      (if v1.Some? then map[k1 := v1.value] else map[]) + (if v2.Some? then map[k2 := v2.value] else map[])
  {
    var o := [(k1, v1), (k2, v2)];
    assert KeysOf(o) == {k1, k2} by {
      assert o[0].0 == k1 && o[1].0 == k2;
    }
    if v1.Some? { WrittenAt(o, 0); }
    if v2.Some? { WrittenAt(o, 1); }
  }

  /**
   * Switching OPENAI_API_KEY to a fixed key and OPENAI_API_BASE to a base
   * that is not `None`, as the Ollama constructor does.
   */
  lemma SwitchKeyAndBase(s: State, key: string, base: string)
    ensures IsDict([(OpenAIKey, Some(key)), (OpenAIBase, Some(base))])
    ensures var r := Switch(s, [(OpenAIKey, Some(key)), (OpenAIBase, Some(base))]);
      && r.env == s.env[OpenAIKey := key][OpenAIBase := base]
      && r.snap == s.snap[OpenAIKey := Some(key)][OpenAIBase := Some(base)]
  {
    var o := [(OpenAIKey, Some(key)), (OpenAIBase, Some(base))];
    assert IsDict(o);
    assert o[1..] == [(OpenAIBase, Some(base))];
    assert o[1..][1..] == [];
    var s1 := State(s.env[OpenAIKey := key], s.snap[OpenAIKey := Some(key)]);
    var s2 := State(s1.env[OpenAIBase := base], s1.snap[OpenAIBase := Some(base)]);
    assert Switch(s, o) == Switch(s1, o[1..]);
    assert Switch(s1, o[1..]) == Switch(s2, o[1..][1..]);
  }

  /** Switching OPENAI_API_KEY to a fixed key and OPENAI_API_BASE to `None`. */
  lemma SwitchKeyOnly(s: State, key: string)
    ensures IsDict([(OpenAIKey, Some(key)), (OpenAIBase, None)])
    ensures var r := Switch(s, [(OpenAIKey, Some(key)), (OpenAIBase, None)]);
      && r.env == s.env[OpenAIKey := key]
      && r.snap == s.snap[OpenAIKey := Some(key)]
  {
    var o := [(OpenAIKey, Some(key)), (OpenAIBase, None)];
    assert IsDict(o);
    assert o[1..] == [(OpenAIBase, None)];
    assert o[1..][1..] == [];
    var s1 := State(s.env[OpenAIKey := key], s.snap[OpenAIKey := Some(key)]);
    assert Switch(s, o) == Switch(s1, o[1..]);
    assert Switch(s1, o[1..]) == Switch(s1, o[1..][1..]);
  }

  /**
   * Item by item: a non-`None` override lands in both maps; every key no
   * item assigns keeps its old entry (or absence) in both maps.
   */
  lemma SwitchPointwise(s: State, o: Overrides)
    requires IsDict(o)
    ensures var r := Switch(s, o);
      forall i :: 0 <= i < |o| && o[i].1.Some? ==>
        o[i].0 in r.env && r.env[o[i].0] == o[i].1.value && o[i].0 in r.snap && r.snap[o[i].0] == o[i].1
    ensures var r := Switch(s, o);
      forall k :: !Assigns(o, k) ==> SameAt(s.env, r.env, k) && SameAt(s.snap, r.snap, k)
  {
    var r := Switch(s, o);
    var w := Written(o);
    forall i | 0 <= i < |o| && o[i].1.Some?
      ensures o[i].0 in r.env && r.env[o[i].0] == o[i].1.value
      ensures o[i].0 in r.snap && r.snap[o[i].0] == o[i].1
    {
      WrittenAt(o, i);
    }
    forall k | !Assigns(o, k)
      ensures SameAt(s.env, r.env, k) && SameAt(s.snap, r.snap, k)
    {
      assert k !in w;
    }
  }

  /** Writing the same value to both maps keeps them reconciled. */
  lemma SwitchPreservesAgreement(s: State, o: Overrides)
    requires IsDict(o)
    requires Agrees(s)
    ensures Agrees(Switch(s, o))
  {
  }

  /**
   * What `os.getenv(k)` returns right after `k` has been switched to its
   * snapshot value: that value, or the environment's own when it is `None`.
   */
  function Effective(s: State, k: string): Option<string> {
    if k in s.snap && s.snap[k].Some? then s.snap[k] else Getenv(s.env, k)
  }

  /** `r` is `s` after each of `keys` has been switched to its snapshot value. */
  ghost predicate Pulled(s: State, r: State, keys: set<string>) {
    && r.snap == s.snap
    && (forall k :: k in keys ==> Getenv(r.env, k) == Effective(s, k))
    && (forall k :: k !in keys ==> SameAt(s.env, r.env, k))
  }

  /**
   * Switching to values read from the snapshot itself leaves the snapshot
   * as it was and pulls those values into the environment.
   */
  lemma SwitchFromSnapshot(s: State, o: Overrides)
    requires IsDict(o)
    requires forall i :: 0 <= i < |o| ==> o[i].0 in s.snap && o[i].1 == s.snap[o[i].0]
    ensures Pulled(s, Switch(s, o), KeysOf(o))
  {
    var r := Switch(s, o);
    SwitchPointwise(s, o);
    assert r.snap == s.snap by { WrittenFromSnapshot(s, o); }
    forall k | k in KeysOf(o)
      ensures Getenv(r.env, k) == Effective(s, k)
    {
      var i :| 0 <= i < |o| && o[i].0 == k;
      if o[i].1.None? {
        UnassignedKey(o, i);
      }
    }
    forall k | k !in KeysOf(o) ensures SameAt(s.env, r.env, k) {
      assert !Assigns(o, k);
    }
  }

  /** Values taken from the snapshot write back what the snapshot already holds. */
  lemma WrittenFromSnapshot(s: State, o: Overrides)
    requires IsDict(o)
    requires forall i :: 0 <= i < |o| ==> o[i].0 in s.snap && o[i].1 == s.snap[o[i].0]
    ensures s.snap + Lift(Written(o)) == s.snap
  {
    var w := Written(o);
    forall k | k in w ensures k in s.snap && s.snap[k] == Some(w[k]) {
      var i :| 0 <= i < |o| && o[i].0 == k && o[i].1.Some?;
      WrittenAt(o, i);
    }
  }

  /** In a dict, the key of an item whose value is `None` is not assigned. */
  lemma UnassignedKey(o: Overrides, i: int)
    requires IsDict(o)
    requires 0 <= i < |o| && o[i].1.None?
    ensures !Assigns(o, o[i].0)
  {
    forall j | 0 <= j < |o| && o[j].0 == o[i].0 ensures o[j].1.None? {
      assert j == i;
    }
  }

  // ---------------------------------------------------------------------
  // restore_environment
  // ---------------------------------------------------------------------

  /**
   * `restore_environment`: the environment is made to show the snapshot,
   * deleting the variables whose snapshot value is `None`; variables the
   * snapshot does not name, and the snapshot itself, are left alone.
   */
  function Restore(s: State): (r: State)
    ensures r.snap == s.snap
    ensures Agrees(r)
    ensures forall k :: k !in s.snap ==> SameAt(s.env, r.env, k)
  {
    var env := map k | k in s.env.Keys + s.snap.Keys && (k in s.snap ==> s.snap[k].Some?) ::
      if k in s.snap then s.snap[k].value else s.env[k];
    State(env, s.snap)
  }

  /** Restoring an environment that already shows the snapshot changes nothing. */
  lemma RestoreAgreeing(s: State)
    requires Agrees(s)
    ensures Restore(s) == s
  {
    var r := Restore(s);
    forall k ensures k in r.env <==> k in s.env {
      if k in s.snap { assert Reflects(s.env, s.snap, k) && Reflects(r.env, s.snap, k); }
    }
    forall k | k in r.env ensures r.env[k] == s.env[k] {
      if k in s.snap { assert Reflects(s.env, s.snap, k) && Reflects(r.env, s.snap, k); }
    }
  }

  /** Key by key: after a restore the environment reads each snapshot key as the snapshot holds it. */
  lemma RestoreShows(s: State, k: string)
    requires k in s.snap
    ensures Restore(s).snap == s.snap
    ensures Getenv(Restore(s).env, k) == s.snap[k]
  {
    assert Reflects(Restore(s).env, Restore(s).snap, k);
  }

  /** Restore is idempotent. */
  lemma RestoreIdempotent(s: State)
    ensures Restore(Restore(s)) == Restore(s)
  {
    RestoreAgreeing(Restore(s));
  }

  /**
   * The loop of `restore_environment`, one snapshot item at a time; the
   * order of the items does not matter, since each writes its own key.
   */
  method RestoreEnvironment(s: State) returns (env: Env)
    ensures env == Restore(s).env
  {
    env := s.env;
    var todo := s.snap.Keys;
    while todo != {}
      invariant todo <= s.snap.Keys
      invariant forall k :: k in s.snap && k !in todo ==> Reflects(env, s.snap, k)
      invariant forall k :: k !in s.snap || k in todo ==> SameAt(s.env, env, k)
      decreases todo
    {
      var k :| k in todo;
      match s.snap[k] {
        case Some(v) =>
          env := env[k := v];
        case None =>
          if k in env {
            env := env - {k};
          }
      }
      todo := todo - {k};
    }
    var r := Restore(s);
    forall k ensures k in env <==> k in r.env {
      if k in s.snap { assert Reflects(env, s.snap, k) && Reflects(r.env, s.snap, k); }
    }
    forall k | k in env ensures env[k] == r.env[k] {
      if k in s.snap { assert Reflects(env, s.snap, k) && Reflects(r.env, s.snap, k); }
    }
  }

  // ---------------------------------------------------------------------
  // safe_pop_env_var
  // ---------------------------------------------------------------------

  /** `os.environ.pop(key, None)`: removes `key` if present, never fails. */
  function SafePopEnvVar(env: Env, key: string): (r: Env)
    ensures key !in r
    ensures forall k :: k != key ==> SameAt(env, r, k)
    ensures key !in env ==> r == env
  {
    env - {key}
  }
}

=== FILE: properties.dfy ===
/**
 * Properties that relate several operations: what a whole `create_llm`
 * call does to the reconciled state, how the catalogue's selectors parse
 * back, and the consequences of the snapshot being written by every switch.
 */
module Properties {
  import opened Wrappers
  import opened Strings
  import opened Environment
  import opened Providers
  import opened Registry

  /** The four providers whose constructors only read credentials from the snapshot. */
  predicate KeyBased(p: Provider) {
    p == OpenAI || p == Anthropic || p == Groq || p == Google
  }

  /**
   * A selector built from a provider's name and a model without `": "`
   * reaches exactly that provider's constructor with exactly that model.
   */
  lemma CreateLlmDispatch(s: State, p: Provider, m: string, t: Temperature)
    requires !Contains(m, Separator)
    ensures CreateLlm(s, Label(p, m), t) == Finish(Construct(p, s, m, t))
  {
    RegistryNames();
    NoColonNoSeparator(Name(p));
    SplitPair(Name(p), m);
  }

  /**
   * The same dispatch seen from the caller: `create_llm` returns what the
   * constructor returned, and after an exception the state is the one the
   * constructor left behind.
   */
  lemma CreateLlmResult(s: State, p: Provider, m: string, t: Temperature)
    requires !Contains(m, Separator)
    ensures CreateLlm(s, Label(p, m), t).res == Construct(p, s, m, t).res
    ensures Construct(p, s, m, t).res.Err? ==> CreateLlm(s, Label(p, m), t) == Construct(p, s, m, t)
  {
    CreateLlmDispatch(s, p, m, t);
  }

  /** An unregistered provider raises before any constructor runs, changing nothing. */
  lemma UnknownProviderChangesNothing(s: State, name: string, m: string, t: Temperature)
    requires !Contains(name, Separator) && !Contains(m, Separator)
    requires forall p :: Name(p) != name
    ensures CreateLlm(s, name + Separator + m, t) == Outcome(s, Err(UnknownProvider(name)))
  {
    SplitPair(name, m);
  }

  /** Every selector of the catalogue names a registered provider and one of its models. */
  lemma CatalogueSelectorsParse(cfg: ModelConfig, x: string)
    requires x in LlmProvidersAndModels(cfg)
    ensures exists p, m ::
      && m in Models(p, cfg)
      && x == Label(p, m)
      && (!Contains(m, Separator) ==> Split(x, Separator) == [Name(p), m] && FindProvider(Name(p)) == Some(p))
  {
    var es := LlmConfig(cfg);
    CatalogueMember(es, x);
    var i, j :| 0 <= i < |es| && 0 <= j < |es[i].models| && x == Label(es[i].provider, es[i].models[j]);
    var p, m := es[i].provider, es[i].models[j];
    assert m in Models(p, cfg);
    if !Contains(m, Separator) {
      RegistryNames();
      NoColonNoSeparator(Name(p));
      SplitPair(Name(p), m);
    }
  }

  /**
   * From a reconciled state, a key-based provider leaves environment and
   * snapshot exactly as they were, whether it returns a client or raises.
   */
  lemma KeyBasedLeavesStateUnchanged(s: State, p: Provider, m: string, t: Temperature)
    requires Agrees(s)
    requires KeyBased(p)
    requires !Contains(m, Separator)
    ensures CreateLlm(s, Label(p, m), t).st == s
  {
    CreateLlmDispatch(s, p, m, t);
    var o := Construct(p, s, m, t);
    assert o.st == s by {
      match p {
        case OpenAI =>
          if OpenAIKey in s.snap && OpenAIBase in s.snap {
            PulledAgreeingIsIdentity(s, o.st, {OpenAIKey, OpenAIBase});
          }
        case Anthropic =>
          if AnthropicKey in s.snap { PulledAgreeingIsIdentity(s, o.st, {AnthropicKey}); }
        case Groq =>
          if GroqKey in s.snap { PulledAgreeingIsIdentity(s, o.st, {GroqKey}); }
        case Google =>
          if GoogleKey in s.snap { PulledAgreeingIsIdentity(s, o.st, {GoogleKey}); }
      }
    }
    RestoreAgreeing(s);
  }

  /** Pulling snapshot values into an environment that already shows them changes nothing. */
  lemma PulledAgreeingIsIdentity(s: State, r: State, keys: set<string>)
    requires Agrees(s)
    requires Pulled(s, r, keys)
    ensures r == s
  {
    forall k ensures Getenv(r.env, k) == Getenv(s.env, k) {
      if k in keys {
        if k in s.snap { assert Reflects(s.env, s.snap, k); }
      } else {
        assert SameAt(s.env, r.env, k);
      }
    }
    forall k ensures k in r.env <==> k in s.env {
      assert Getenv(r.env, k) == Getenv(s.env, k);
    }
    forall k | k in r.env ensures r.env[k] == s.env[k] {
      assert Getenv(r.env, k) == Getenv(s.env, k);
    }
  }

  /**
   * A successful Ollama selection leaves its sentinel key and its host in
   * both the environment and the snapshot: the restore that follows
   * restores to them rather than undoing them.
   */
  lemma OllamaSentinelPersists(s: State, m: string, t: Temperature)
    requires OllamaHost in s.snap && Truthy(s.snap[OllamaHost])
    requires !Contains(m, Separator)
    ensures var o := CreateLlm(s, Label(Ollama, m), t);
      && o.res == Ok(CrewLLM(m, t, s.snap[OllamaHost]))
      && o.st.snap == s.snap[OpenAIKey := Some(OllamaSentinel)][OpenAIBase := s.snap[OllamaHost]]
      && Getenv(o.st.env, OpenAIKey) == Some(OllamaSentinel)
      && Getenv(o.st.env, OpenAIBase) == s.snap[OllamaHost]
  {
    SelectOllama(s, m, t);
    OllamaThenRestore(s, m, t, CreateLlm(s, Label(Ollama, m), t));
  }

  /** Selecting Ollama runs `create_ollama_llm` and then the restore on success. */
  lemma SelectOllama(s: State, m: string, t: Temperature)
    requires !Contains(m, Separator)
    ensures CreateLlm(s, Label(Ollama, m), t) == Finish(CreateOllama(s, m, t))
  {
    CreateLlmDispatch(s, Ollama, m, t);
  }

  /** The Ollama constructor followed by the restore `create_llm` performs after it. */
  lemma OllamaThenRestore(s: State, m: string, t: Temperature, o: Outcome)
    requires OllamaHost in s.snap && Truthy(s.snap[OllamaHost])
    requires o == Finish(CreateOllama(s, m, t))
    ensures
      && o.res == Ok(CrewLLM(m, t, s.snap[OllamaHost]))
      && o.st.snap == s.snap[OpenAIKey := Some(OllamaSentinel)][OpenAIBase := s.snap[OllamaHost]]
      && Getenv(o.st.env, OpenAIKey) == Some(OllamaSentinel)
      && Getenv(o.st.env, OpenAIBase) == s.snap[OllamaHost]
  {
    var c := CreateOllama(s, m, t);
    RestoreShows(c.st, OpenAIKey);
    RestoreShows(c.st, OpenAIBase);
  }

  /**
   * A repeat Ollama selection, from an agreeing state whose snapshot already
   * holds the sentinel and the host, leaves the state exactly as it was.
   */
  lemma OllamaRepeatChangesNothing(s: State, m: string, t: Temperature)
    requires Agrees(s)
    requires OllamaHost in s.snap && Truthy(s.snap[OllamaHost])
    requires OpenAIKey in s.snap && s.snap[OpenAIKey] == Some(OllamaSentinel)
    requires OpenAIBase in s.snap && s.snap[OpenAIBase] == s.snap[OllamaHost]
    requires !Contains(m, Separator)
    ensures CreateLlm(s, Label(Ollama, m), t).st == s
  {
    SelectOllama(s, m, t);
    OllamaRepeatKeepsState(s, m, t);
    RestoreAgreeing(s);
  }

  /** The Ollama constructor rewrites values the agreeing state already holds. */
  lemma OllamaRepeatKeepsState(s: State, m: string, t: Temperature)
    requires Agrees(s)
    requires OllamaHost in s.snap && Truthy(s.snap[OllamaHost])
    requires OpenAIKey in s.snap && s.snap[OpenAIKey] == Some(OllamaSentinel)
    requires OpenAIBase in s.snap && s.snap[OpenAIBase] == s.snap[OllamaHost]
    ensures CreateOllama(s, m, t).st == s
  {
    var host := s.snap[OllamaHost].value;
    assert Reflects(s.env, s.snap, OpenAIKey);
    assert Reflects(s.env, s.snap, OpenAIBase);
    UpdateSame(s.env, OpenAIKey, OllamaSentinel);
    UpdateSame(s.env, OpenAIBase, host);
    UpdateSame(s.snap, OpenAIKey, Some(OllamaSentinel));
    UpdateSame(s.snap, OpenAIBase, Some(host));
  }

  /** Writing a key's own value back leaves a map unchanged. */
  lemma UpdateSame<V>(m: map<string, V>, k: string, v: V)
    requires k in m && m[k] == v
    ensures m[k := v] == m
  {
  }

  /**
   * After an Ollama selection, an OpenAI selection succeeds with the Ollama
   * sentinel as its key and is pointed at the Ollama host: credentials of
   * one selection stay visible to the next.
   */
  lemma OllamaCredentialsReachOpenAI(s: State, m1: string, m2: string, t: Temperature)
    requires OllamaHost in s.snap && Truthy(s.snap[OllamaHost])
    requires !Contains(m1, Separator) && !Contains(m2, Separator)
    ensures var o1 := CreateLlm(s, Label(Ollama, m1), t);
      var o2 := CreateLlm(o1.st, Label(OpenAI, m2), t);
      o2.res == Ok(CrewLLM(m2, t, s.snap[OllamaHost]))
  {
    OllamaSentinelPersists(s, m1, t);
    var o1 := CreateLlm(s, Label(Ollama, m1), t);
    CreateLlmDispatch(o1.st, OpenAI, m2, t);
  }

  /**
   * With no LM Studio base in the snapshot, a reconciled state whose
   * OPENAI_API_BASE is set makes LM Studio succeed against that base.
   */
  lemma LmStudioFallsBackToOpenAIBase(s: State, m: string, t: Temperature)
    requires Agrees(s)
    requires LmStudioBase in s.snap && s.snap[LmStudioBase] == None
    requires OpenAIBase in s.snap && Truthy(s.snap[OpenAIBase])
    requires !Contains(m, Separator)
    ensures CreateLlm(s, Label(LmStudio, m), t).res ==
      Ok(ChatOpenAI(LmStudioSentinel, s.snap[OpenAIBase].value, t, MaxTokens))
  {
    assert Getenv(s.env, OpenAIBase) == s.snap[OpenAIBase] by {
      assert Reflects(s.env, s.snap, OpenAIBase);
    }
    LmStudioUsesEnvironmentBase(s, m, t);
    CreateLlmResult(s, LmStudio, m, t);
  }

  /** Without its own base, LM Studio connects to the environment's OPENAI_API_BASE. */
  lemma LmStudioUsesEnvironmentBase(s: State, m: string, t: Temperature)
    requires LmStudioBase in s.snap && s.snap[LmStudioBase] == None
    requires Truthy(Getenv(s.env, OpenAIBase))
    ensures Construct(LmStudio, s, m, t).res ==
      Ok(ChatOpenAI(LmStudioSentinel, Getenv(s.env, OpenAIBase).value, t, MaxTokens))
  {
    assert Construct(LmStudio, s, m, t) == CreateLmStudio(s, m, t);
  }

  /**
   * Right after initialisation from an environment with neither
   * OPENAI_API_BASE nor LMSTUDIO_API_BASE, the session already disagrees
   * with its snapshot, and selecting LM Studio raises. The sentinel key is
   * written to both maps; the skipped restore leaves the missing
   * OPENAI_API_BASE unrepaired, so the state still disagrees.
   */
  lemma LmStudioErrorSkipsRestore(env: Env, dotenv: Env, m: string, t: Temperature)
    requires OpenAIBase !in env && OpenAIBase !in dotenv
    requires LmStudioBase !in env && LmStudioBase !in dotenv
    requires !Contains(m, Separator)
    ensures var s := LoadSecrets(env, dotenv, None);
      var o := CreateLlm(s, Label(LmStudio, m), t);
      && o.res == Err(NotConfigured(LmStudioMissing))
      && Getenv(o.st.env, OpenAIKey) == Some(LmStudioSentinel)
      && OpenAIBase !in o.st.env
      && OpenAIBase in o.st.snap && o.st.snap[OpenAIBase] == Some(DefaultOpenAIBase)
      && !Agrees(s) && !Agrees(o.st)
  {
    var s := LoadSecrets(env, dotenv, None);
    assert s.snap[LmStudioBase] == None;
    FreshLoadDisagrees(env, dotenv);
    LmStudioWithoutAnyBase(s, m, t);
    CreateLlmResult(s, LmStudio, m, t);
  }

  /**
   * LM Studio with no base URL in the snapshot nor in the environment
   * raises after its switch. Such a state already disagrees, since the
   * snapshot records an OPENAI_API_BASE the environment lacks; the sentinel
   * key goes into both maps and the base stays missing.
   */
  lemma LmStudioWithoutAnyBase(s: State, m: string, t: Temperature)
    requires LmStudioBase in s.snap && s.snap[LmStudioBase] == None
    requires OpenAIBase !in s.env
    requires OpenAIBase in s.snap && s.snap[OpenAIBase].Some?
    ensures var c := Construct(LmStudio, s, m, t);
      && c.res == Err(NotConfigured(LmStudioMissing))
      && Getenv(c.st.env, OpenAIKey) == Some(LmStudioSentinel)
      && OpenAIBase !in c.st.env
      && OpenAIBase in c.st.snap && c.st.snap[OpenAIBase] == s.snap[OpenAIBase]
      && !Agrees(s) && !Agrees(c.st)
  {
    assert !Reflects(s.env, s.snap, OpenAIBase);
    var c := CreateLmStudio(s, m, t);
    assert c.st.env == s.env[OpenAIKey := LmStudioSentinel];
    assert c.st.snap == s.snap[OpenAIKey := Some(LmStudioSentinel)];
    assert !Reflects(c.st.env, c.st.snap, OpenAIBase);
  }

  /**
   * The OpenAI scenario: with only an API key configured, the client gets
   * the public endpoint as its base URL.
   */
  lemma OpenAIDefaultBase(env: Env, key: string, m: string, t: Temperature)
    requires Getenv(env, OpenAIKey) == Some(key) && key != ""
    requires OpenAIBase !in env
    requires !Contains(m, Separator)
    ensures var s := LoadSecrets(env, map[], None);
      CreateLlm(s, Label(OpenAI, m), t).res == Ok(CrewLLM(m, t, Some(DefaultOpenAIBase)))
  {
    var s := LoadSecrets(env, map[], None);
    assert s.snap[OpenAIKey] == Some(key);
    assert s.snap[OpenAIBase] == Some(DefaultOpenAIBase);
    assert Construct(OpenAI, s, m, t) == CreateOpenAI(s, m, t);
    CreateLlmResult(s, OpenAI, m, t);
  }

  /**
   * The first successful call of a session loaded with OPENAI_API_BASE
   * unset changes the environment: the session starts out disagreeing,
   * and the restore after the call writes the snapshot's default base.
   */
  lemma FirstAnthropicCallChangesEnv(env: Env, key: string, m: string, t: Temperature)
    requires OpenAIBase !in env
    requires Getenv(env, AnthropicKey) == Some(key) && key != ""
    requires !Contains(m, Separator)
    ensures var s := LoadSecrets(env, map[], None);
      var o := CreateLlm(s, Label(Anthropic, m), t);
      && !Agrees(s)
      && o.res.Ok? && Agrees(o.st)
      && OpenAIBase in o.st.env && o.st.env != s.env
  {
    var s := LoadSecrets(env, map[], None);
    FreshLoadDisagrees(env, map[]);
    AnthropicWithKey(s, key, m, t);
    CreateLlmKeepsInvariants(s, Label(Anthropic, m), t);
    var o := CreateLlm(s, Label(Anthropic, m), t);
    assert Reflects(o.st.env, o.st.snap, OpenAIBase);
  }

  /** With a key in the snapshot, an Anthropic selection succeeds and keeps the snapshot. */
  lemma AnthropicWithKey(s: State, key: string, m: string, t: Temperature)
    requires AnthropicKey in s.snap && s.snap[AnthropicKey] == Some(key) && key != ""
    requires !Contains(m, Separator)
    ensures var o := CreateLlm(s, Label(Anthropic, m), t);
      o.res.Ok? && o.st.snap == s.snap
  {
    assert Construct(Anthropic, s, m, t) == CreateAnthropic(s, m, t);
    CreateLlmDispatch(s, Anthropic, m, t);
  }

  /**
   * The Anthropic scenario: with no Anthropic key anywhere, the selection
   * raises the message that names Anthropic.
   */
  lemma AnthropicMissingKey(env: Env, m: string, t: Temperature)
    requires AnthropicKey !in env
    requires !Contains(m, Separator)
    ensures var s := LoadSecrets(env, map[], None);
      CreateLlm(s, Label(Anthropic, m), t).res == Err(NotConfigured(AnthropicMissing))
  {
    var s := LoadSecrets(env, map[], None);
    assert s.snap[AnthropicKey] == None;
    assert Construct(Anthropic, s, m, t) == CreateAnthropic(s, m, t);
    CreateLlmResult(s, Anthropic, m, t);
  }
}

=== FILE: providers.dfy ===
/**
 * The six per-provider client constructors (app/llms.py:41-123). Each
 * switches the credentials it needs into the environment, reads them back,
 * and either returns a client or raises; the vendor client classes are
 * modelled as records of the arguments they are given.
 */
module Providers {
  import opened Wrappers
  import opened Environment

  /** A sampling temperature; it is only passed through, never computed with. */
  type Temperature = real

  /** The `max_tokens` the Anthropic, Groq and LM Studio clients are given. */
  const MaxTokens: nat := 4095

  /** The API key the local-hosting providers put in place of a real one. */
  const OllamaSentinel: string := "ollama"
  const LmStudioSentinel: string := "lm-studio"

  /** A constructed client: the vendor class and the arguments it received. */
  datatype Client =
    | CrewLLM(model: string, temperature: Temperature, baseUrl: Option<string>)
    | ChatAnthropic(anthropicApiKey: string, modelName: string, temperature: Temperature, maxTokens: nat)
    | ChatGroq(groqApiKey: string, modelName: string, temperature: Temperature, maxTokens: nat)
    | ChatGoogleGenerativeAI(googleApiKey: string, model: string, temperature: Temperature,
                             convertSystemMessageToHuman: bool)
    | ChatOpenAI(openaiApiKey: string, openaiApiBase: string, temperature: Temperature, maxTokens: nat)

  /** The exceptions the factory can raise. */
  datatype Error =
      /** `ValueError` from unpacking a split that did not yield two parts. */
    | UnpackError(parts: nat)
      /** `ValueError`: the selector names no registered provider. */
    | UnknownProvider(name: string)
      /** `ValueError` raised by a constructor whose credential is missing. */
    | NotConfigured(message: string)
      /** `KeyError`: the snapshot has no entry for a credential. */
    | MissingSnapshotKey(key: string)

  /** The state after a call, and what the call returned or raised. */
  datatype Outcome = Outcome(st: State, res: Result<Client, Error>)

  const OpenAIMissing: string := "OpenAI API key not set in .env file"
  const AnthropicMissing: string := "Anthropic API key not set in .env file"
  const GroqMissing: string := "Groq API key not set in .env file"
  const GoogleMissing: string := "Google API key not set in .env file"
  const OllamaMissing: string := "Ollama Host is not set in .env file"
  const LmStudioMissing: string := "LM Studio API base not set in .env file"

  /**
   * `create_openai_llm`: switches the key and base URL to their snapshot
   * values, and builds a client with whatever base the environment then holds.
   */
  function CreateOpenAI(s: State, model: string, t: Temperature): (o: Outcome)
    ensures OpenAIKey !in s.snap ==> o == Outcome(s, Err(MissingSnapshotKey(OpenAIKey)))
    ensures OpenAIKey in s.snap && OpenAIBase !in s.snap ==>
      o == Outcome(s, Err(MissingSnapshotKey(OpenAIBase)))
    ensures OpenAIKey in s.snap && OpenAIBase in s.snap ==>
      && Pulled(s, o.st, {OpenAIKey, OpenAIBase})
      && (o.res.Ok? <==> Truthy(Effective(s, OpenAIKey)))
      && (o.res.Ok? ==> o.res.value == CrewLLM(model, t, Effective(s, OpenAIBase)))
      && (o.res.Err? ==> o.res.error == NotConfigured(OpenAIMissing))
  {
    if OpenAIKey !in s.snap then Outcome(s, Err(MissingSnapshotKey(OpenAIKey)))
    else if OpenAIBase !in s.snap then Outcome(s, Err(MissingSnapshotKey(OpenAIBase)))
    else
      var o := [(OpenAIKey, s.snap[OpenAIKey]), (OpenAIBase, s.snap[OpenAIBase])];
      PairOverrides(OpenAIKey, s.snap[OpenAIKey], OpenAIBase, s.snap[OpenAIBase]);
      var s' := Switch(s, o);
      SwitchFromSnapshot(s, o);
      var apiKey := Getenv(s'.env, OpenAIKey);
      var apiBase := Getenv(s'.env, OpenAIBase);
      if Truthy(apiKey) then Outcome(s', Ok(CrewLLM(model, t, apiBase)))
      else Outcome(s', Err(NotConfigured(OpenAIMissing)))
  }

  /** `create_anthropic_llm`. */
  function CreateAnthropic(s: State, model: string, t: Temperature): (o: Outcome)
    ensures AnthropicKey !in s.snap ==> o == Outcome(s, Err(MissingSnapshotKey(AnthropicKey)))
    ensures AnthropicKey in s.snap ==>
      && Pulled(s, o.st, {AnthropicKey})
      && (o.res.Ok? <==> Truthy(Effective(s, AnthropicKey)))
      && (o.res.Ok? ==>
            o.res.value == ChatAnthropic(Effective(s, AnthropicKey).value, model, t, MaxTokens))
      && (o.res.Err? ==> o.res.error == NotConfigured(AnthropicMissing))
  {
    if AnthropicKey !in s.snap then Outcome(s, Err(MissingSnapshotKey(AnthropicKey)))
    else
      var o := [(AnthropicKey, s.snap[AnthropicKey])];
      var s' := Switch(s, o);
      SwitchFromSnapshot(s, o);
      assert KeysOf(o) == {AnthropicKey};
      var apiKey := Getenv(s'.env, AnthropicKey);
      if Truthy(apiKey) then Outcome(s', Ok(ChatAnthropic(apiKey.value, model, t, MaxTokens)))
      else Outcome(s', Err(NotConfigured(AnthropicMissing)))
  }

  /** `create_groq_llm`. */
  function CreateGroq(s: State, model: string, t: Temperature): (o: Outcome)
    ensures GroqKey !in s.snap ==> o == Outcome(s, Err(MissingSnapshotKey(GroqKey)))
    ensures GroqKey in s.snap ==>
      && Pulled(s, o.st, {GroqKey})
      && (o.res.Ok? <==> Truthy(Effective(s, GroqKey)))
      && (o.res.Ok? ==> o.res.value == ChatGroq(Effective(s, GroqKey).value, model, t, MaxTokens))
      && (o.res.Err? ==> o.res.error == NotConfigured(GroqMissing))
  {
    if GroqKey !in s.snap then Outcome(s, Err(MissingSnapshotKey(GroqKey)))
    else
      var o := [(GroqKey, s.snap[GroqKey])];
      var s' := Switch(s, o);
      SwitchFromSnapshot(s, o);
      assert KeysOf(o) == {GroqKey};
      var apiKey := Getenv(s'.env, GroqKey);
      if Truthy(apiKey) then Outcome(s', Ok(ChatGroq(apiKey.value, model, t, MaxTokens)))
      else Outcome(s', Err(NotConfigured(GroqMissing)))
  }

  /** `create_google_llm`: the client is told to fold system messages into human ones. */
  function CreateGoogle(s: State, model: string, t: Temperature): (o: Outcome)
    ensures GoogleKey !in s.snap ==> o == Outcome(s, Err(MissingSnapshotKey(GoogleKey)))
    ensures GoogleKey in s.snap ==>
      && Pulled(s, o.st, {GoogleKey})
      && (o.res.Ok? <==> Truthy(Effective(s, GoogleKey)))
      && (o.res.Ok? ==>
            o.res.value == ChatGoogleGenerativeAI(Effective(s, GoogleKey).value, model, t, true))
      && (o.res.Err? ==> o.res.error == NotConfigured(GoogleMissing))
  {
    if GoogleKey !in s.snap then Outcome(s, Err(MissingSnapshotKey(GoogleKey)))
    else
      var o := [(GoogleKey, s.snap[GoogleKey])];
      var s' := Switch(s, o);
      SwitchFromSnapshot(s, o);
      assert KeysOf(o) == {GoogleKey};
      var apiKey := Getenv(s'.env, GoogleKey);
      if Truthy(apiKey) then Outcome(s', Ok(ChatGoogleGenerativeAI(apiKey.value, model, t, true)))
      else Outcome(s', Err(NotConfigured(GoogleMissing)))
  }

  /**
   * `create_ollama_llm`: checks the snapshot's host before touching any
   * state; on success the sentinel key and the host are written into both
   * the environment and the snapshot.
   */
  function CreateOllama(s: State, model: string, t: Temperature): (o: Outcome)
    ensures OllamaHost !in s.snap ==> o == Outcome(s, Err(MissingSnapshotKey(OllamaHost)))
    ensures OllamaHost in s.snap && !Truthy(s.snap[OllamaHost]) ==>
      o == Outcome(s, Err(NotConfigured(OllamaMissing)))
    ensures OllamaHost in s.snap && Truthy(s.snap[OllamaHost]) ==>
      var host := s.snap[OllamaHost].value;
      && o.res == Ok(CrewLLM(model, t, Some(host)))
      && o.st.env == s.env[OpenAIKey := OllamaSentinel][OpenAIBase := host]
      && o.st.snap == s.snap[OpenAIKey := Some(OllamaSentinel)][OpenAIBase := Some(host)]
  {
    if OllamaHost !in s.snap then Outcome(s, Err(MissingSnapshotKey(OllamaHost)))
    else
      var host := s.snap[OllamaHost];
      if Truthy(host) then
        var o := [(OpenAIKey, Some(OllamaSentinel)), (OpenAIBase, host)];
        SwitchKeyAndBase(s, OllamaSentinel, host.value);
        Outcome(Switch(s, o), Ok(CrewLLM(model, t, host)))
      else
        Outcome(s, Err(NotConfigured(OllamaMissing)))
  }

  /**
   * `create_lmstudio_llm`: writes the sentinel key, and the LM Studio base
   * when the snapshot has one, before checking anything; with no LM Studio
   * base it uses whatever OPENAI_API_BASE the environment already holds.
   * The model argument is not used.
   */
  function CreateLmStudio(s: State, model: string, t: Temperature): (o: Outcome)
    ensures LmStudioBase !in s.snap ==> o == Outcome(s, Err(MissingSnapshotKey(LmStudioBase)))
    ensures LmStudioBase in s.snap && s.snap[LmStudioBase].Some? ==>
      var b := s.snap[LmStudioBase].value;
      && o.st.env == s.env[OpenAIKey := LmStudioSentinel][OpenAIBase := b]
      && o.st.snap == s.snap[OpenAIKey := Some(LmStudioSentinel)][OpenAIBase := Some(b)]
    ensures LmStudioBase in s.snap && s.snap[LmStudioBase].None? ==>
      && o.st.env == s.env[OpenAIKey := LmStudioSentinel]
      && o.st.snap == s.snap[OpenAIKey := Some(LmStudioSentinel)]
    ensures LmStudioBase in s.snap ==>
      var used := if s.snap[LmStudioBase].Some? then s.snap[LmStudioBase] else Getenv(s.env, OpenAIBase);
      && (o.res.Ok? <==> Truthy(used))
      && (o.res.Ok? ==> o.res.value == ChatOpenAI(LmStudioSentinel, used.value, t, MaxTokens))
      && (o.res.Err? ==> o.res.error == NotConfigured(LmStudioMissing))
  {
    if LmStudioBase !in s.snap then Outcome(s, Err(MissingSnapshotKey(LmStudioBase)))
    else
      match s.snap[LmStudioBase]
      case Some(b) =>
        SwitchKeyAndBase(s, LmStudioSentinel, b);
        LmStudioClient(Switch(s, [(OpenAIKey, Some(LmStudioSentinel)), (OpenAIBase, Some(b))]), t)
      case None =>
        SwitchKeyOnly(s, LmStudioSentinel);
        LmStudioClient(Switch(s, [(OpenAIKey, Some(LmStudioSentinel)), (OpenAIBase, None)]), t)
  }

  /** The check and construction `create_lmstudio_llm` performs after its switch. */
  function LmStudioClient(s: State, t: Temperature): Outcome {
    var apiBase := Getenv(s.env, OpenAIBase);
    if Truthy(apiBase) then Outcome(s, Ok(ChatOpenAI(LmStudioSentinel, apiBase.value, t, MaxTokens)))
    else Outcome(s, Err(NotConfigured(LmStudioMissing)))
  }

  /** LM Studio's client does not depend on the model that was asked for. */
  lemma LmStudioIgnoresModel(s: State, m1: string, m2: string, t: Temperature)
    ensures CreateLmStudio(s, m1, t) == CreateLmStudio(s, m2, t)
  {
  }
}

=== FILE: registry.dfy ===
/**
 * `LLM_CONFIG`, the catalogue of selectable "provider: model" strings, and
 * the factory `create_llm` that parses a selector, dispatches to the
 * provider's constructor and restores the environment (app/llms.py:125-164).
 */
module Registry {
  import opened Wrappers
  import opened Strings
  import opened Environment
  import opened Providers

  /** The registered providers, one per entry of `LLM_CONFIG`. */
  datatype Provider = OpenAI | Groq | Google | Ollama | Anthropic | LmStudio

  /** The key of a provider's entry in `LLM_CONFIG`. */
  function Name(p: Provider): string {
    match p
    case OpenAI => "OpenAI"
    case Groq => "Groq"
    case Google => "Google"
    case Ollama => "Ollama"
    case Anthropic => "Anthropic"
    case LmStudio => "LM Studio"
  }

  /** The order in which `LLM_CONFIG` lists its entries. */
  const Order: seq<Provider> := [OpenAI, Groq, Google, Ollama, Anthropic, LmStudio]

  /**
   * The two environment variables `LLM_CONFIG` reads once, when the module
   * is imported: OPENAI_PROXY_MODELS and OLLAMA_MODELS.
   */
  datatype ModelConfig = ModelConfig(openaiProxyModels: Option<string>, ollamaModels: Option<string>)

  const DefaultOpenAIModels: seq<string> := ["gpt-4o", "gpt-4o-mini", "gpt-3.5-turbo", "gpt-4-turbo"]
  const GroqModels: seq<string> := ["llama3-8b-8192", "llama3-70b-8192", "mixtral-8x7b-32768"]
  const GoogleModels: seq<string> := ["gemini-1.5-pro", "gemini-1.5-flash"]
  const AnthropicModels: seq<string> := ["claude-3-5-sonnet-20240620"]
  const LmStudioModels: seq<string> := ["lms-default"]

  /**
   * A provider's selectable models: the comma-separated configuration
   * variable when it is set and non-empty, else the fixed list (empty for
   * Ollama).
   */
  function Models(p: Provider, cfg: ModelConfig): (ms: seq<string>)
    ensures p == OpenAI && Truthy(cfg.openaiProxyModels) ==>
      |ms| >= 1 && Join(ms, ",") == cfg.openaiProxyModels.value &&
      forall i :: 0 <= i < |ms| ==> !Contains(ms[i], ",")
    ensures p == Ollama && Truthy(cfg.ollamaModels) ==>
      |ms| >= 1 && Join(ms, ",") == cfg.ollamaModels.value &&
      forall i :: 0 <= i < |ms| ==> !Contains(ms[i], ",")
    ensures p == Ollama && !Truthy(cfg.ollamaModels) ==> ms == []
    ensures p != Ollama ==> |ms| >= 1
  {
    match p
    case OpenAI =>
      if Truthy(cfg.openaiProxyModels) then Split(cfg.openaiProxyModels.value, ",") else DefaultOpenAIModels
    case Groq => GroqModels
    case Google => GoogleModels
    case Ollama =>
      if Truthy(cfg.ollamaModels) then Split(cfg.ollamaModels.value, ",") else []
    case Anthropic => AnthropicModels
    case LmStudio => LmStudioModels
  }

  /** One entry of `LLM_CONFIG`; its constructor is `Construct(provider, ...)`. */
  datatype Entry = Entry(provider: Provider, models: seq<string>)

  /** `LLM_CONFIG`, in its declared order. */
  function LlmConfig(cfg: ModelConfig): (es: seq<Entry>)
    ensures |es| == |Order|
    ensures forall i :: 0 <= i < |es| ==> es[i] == Entry(Order[i], Models(Order[i], cfg))
  {
    [ Entry(OpenAI, Models(OpenAI, cfg)), Entry(Groq, Models(Groq, cfg)),
      Entry(Google, Models(Google, cfg)), Entry(Ollama, Models(Ollama, cfg)),
      Entry(Anthropic, Models(Anthropic, cfg)), Entry(LmStudio, Models(LmStudio, cfg)) ]
  }

  /** The vendor client each provider's constructor builds. */
  predicate Builds(p: Provider, c: Client) {
    match p
    case OpenAI => c.CrewLLM?
    case Ollama => c.CrewLLM?
    case Groq => c.ChatGroq?
    case Google => c.ChatGoogleGenerativeAI?
    case Anthropic => c.ChatAnthropic?
    case LmStudio => c.ChatOpenAI?
  }

  /**
   * The `create_llm` field of a provider's entry: it builds that provider's
   * client, and raises only the missing-credential `ValueError` or a
   * `KeyError` on the snapshot.
   */
  function Construct(p: Provider, s: State, model: string, t: Temperature): (o: Outcome)
    ensures o.res.Ok? ==> Builds(p, o.res.value)
    ensures o.res.Err? ==> o.res.error.NotConfigured? || o.res.error.MissingSnapshotKey?
  {
    match p
    case OpenAI => CreateOpenAI(s, model, t)
    case Groq => CreateGroq(s, model, t)
    case Google => CreateGoogle(s, model, t)
    case Ollama => CreateOllama(s, model, t)
    case Anthropic => CreateAnthropic(s, model, t)
    case LmStudio => CreateLmStudio(s, model, t)
  }

  // ---------------------------------------------------------------------
  // Provider lookup
  // ---------------------------------------------------------------------

  /** Every provider is registered, and no two share a name. */
  lemma RegistryNames()
    ensures forall p :: p in Order
    ensures forall p, q :: Name(p) == Name(q) ==> p == q
    ensures forall p :: ':' !in Name(p)
  {
    forall p ensures p in Order {
      match p
      case OpenAI => assert Order[0] == p;
      case Groq => assert Order[1] == p;
      case Google => assert Order[2] == p;
      case Ollama => assert Order[3] == p;
      case Anthropic => assert Order[4] == p;
      case LmStudio => assert Order[5] == p;
    }
  }

  /** The first provider of `ps` named `name`. */
  function FindIn(ps: seq<Provider>, name: string): (r: Option<Provider>)
    ensures r.Some? ==> r.value in ps && Name(r.value) == name
    ensures r.None? ==> forall p :: p in ps ==> Name(p) != name
    decreases |ps|
  {
    if |ps| == 0 then None
    else if Name(ps[0]) == name then Some(ps[0])
    else FindIn(ps[1..], name)
  }

  /** `LLM_CONFIG.get(name)`: the provider registered under `name`, if any. */
  function FindProvider(name: string): (r: Option<Provider>)
    ensures forall p :: r == Some(p) <==> Name(p) == name
  {
    RegistryNames();
    FindIn(Order, name)
  }

  // ---------------------------------------------------------------------
  // llm_providers_and_models
  // ---------------------------------------------------------------------

  /** The selector string for one provider and model. */
  function Label(p: Provider, model: string): string {
    Name(p) + Separator + model
  }

  /** The number of models listed by the entries. */
  function Total(es: seq<Entry>): nat
    decreases |es|
  {
    if |es| == 0 then 0 else Total(es[..|es| - 1]) + |es[|es| - 1].models|
  }

  /** The selectors of one entry, in model order. */
  function Row(e: Entry): (r: seq<string>)
    ensures |r| == |e.models|
    ensures forall j :: 0 <= j < |r| ==> r[j] == Label(e.provider, e.models[j])
  {
    seq(|e.models|, j requires 0 <= j < |e.models| => Label(e.provider, e.models[j]))
  }

  /** The selectors of all entries, entry by entry and, within an entry, model by model. */
  function Catalogue(es: seq<Entry>): (r: seq<string>)
    ensures |r| == Total(es)
    decreases |es|
  {
    if |es| == 0 then [] else Catalogue(es[..|es| - 1]) + Row(es[|es| - 1])
  }

  /**
   * The `j`th model of entry `i` sits right after the models of the entries
   * before `i`: registry order first, then model order.
   */
  lemma {:induction false} CatalogueAt(es: seq<Entry>, i: int, j: int)
    requires 0 <= i < |es| && 0 <= j < |es[i].models|
    ensures Total(es[..i]) + j < |Catalogue(es)|
    ensures Catalogue(es)[Total(es[..i]) + j] == Label(es[i].provider, es[i].models[j])
    decreases |es|
  {
    var init, last := es[..|es| - 1], es[|es| - 1];
    var k := Total(es[..i]) + j;
    assert Catalogue(es) == Catalogue(init) + Row(last);
    if i < |init| {
      assert init[..i] == es[..i];
      assert init[i] == es[i];
      CatalogueAt(init, i, j);
      assert Catalogue(es)[k] == Catalogue(init)[k];
    } else {
      assert es[..i] == init;
      assert k == |Catalogue(init)| + j;
      assert Catalogue(es)[k] == Row(last)[j];
    }
  }

  /** Every selector in the catalogue comes from some entry and one of its models. */
  lemma {:induction false} CatalogueMember(es: seq<Entry>, x: string)
    requires x in Catalogue(es)
    ensures exists i, j :: 0 <= i < |es| && 0 <= j < |es[i].models| && x == Label(es[i].provider, es[i].models[j])
    decreases |es|
  {
    var init := es[..|es| - 1];
    var last := |es| - 1;
    if x in Catalogue(init) {
      CatalogueMember(init, x);
      var i, j :| 0 <= i < |init| && 0 <= j < |init[i].models| && x == Label(init[i].provider, init[i].models[j]);
      assert init[i] == es[i];
    } else {
      var j :| 0 <= j < |Row(es[last])| && Row(es[last])[j] == x;
      assert x == Label(es[last].provider, es[last].models[j]);
    }
  }

  /** `llm_providers_and_models()`. */
  function LlmProvidersAndModels(cfg: ModelConfig): (r: seq<string>)
    ensures |r| == |Models(OpenAI, cfg)| + |Models(Groq, cfg)| + |Models(Google, cfg)|
                 + |Models(Ollama, cfg)| + |Models(Anthropic, cfg)| + |Models(LmStudio, cfg)|
  {
    var es := LlmConfig(cfg);
    TotalOfPrefixes(es);
    assert es[..|es|] == es;
    Catalogue(es)
  }

  /** Every configured model of every provider is offered as a selector. */
  lemma EveryModelOffered(cfg: ModelConfig, p: Provider, m: string)
    requires m in Models(p, cfg)
    ensures Label(p, m) in LlmProvidersAndModels(cfg)
  {
    var es := LlmConfig(cfg);
    var i := match p
      case OpenAI => 0 case Groq => 1 case Google => 2
      case Ollama => 3 case Anthropic => 4 case LmStudio => 5;
    assert Order[i] == p;
    var j :| 0 <= j < |Models(p, cfg)| && Models(p, cfg)[j] == m;
    CatalogueAt(es, i, j);
  }

  /** `Total` unfolded over the six prefixes of the registry. */
  lemma TotalOfPrefixes(es: seq<Entry>)
    requires |es| == 6
    ensures Total(es[..6]) == |es[0].models| + |es[1].models| + |es[2].models|
                            + |es[3].models| + |es[4].models| + |es[5].models|
  {
    assert es[..1][..0] == es[..0];
    assert Total(es[..1]) == |es[0].models|;
    assert es[..2][..1] == es[..1];
    assert Total(es[..2]) == Total(es[..1]) + |es[1].models|;
    assert es[..3][..2] == es[..2];
    assert Total(es[..3]) == Total(es[..2]) + |es[2].models|;
    assert es[..4][..3] == es[..3];
    assert Total(es[..4]) == Total(es[..3]) + |es[3].models|;
    assert es[..5][..4] == es[..4];
    assert Total(es[..5]) == Total(es[..4]) + |es[4].models|;
    assert es[..6][..5] == es[..5];
  }

  /** The catalogue of two lists of entries is the two catalogues in turn. */
  lemma {:induction false} CatalogueAppend(a: seq<Entry>, b: seq<Entry>)
    ensures Catalogue(a + b) == Catalogue(a) + Catalogue(b)
    decreases |b|
  {
    if |b| > 0 {
      var b' := b[..|b| - 1];
      assert (a + b)[..|a + b| - 1] == a + b';
      assert (a + b)[|a + b| - 1] == b[|b| - 1];
      CatalogueAppend(a, b');
    } else {
      assert a + b == a;
    }
  }

  /** An entry with no models contributes nothing to the catalogue. */
  lemma CatalogueSkipsEmpty(es: seq<Entry>, i: int)
    requires 0 <= i < |es|
    requires es[i].models == []
    ensures Catalogue(es) == Catalogue(es[..i] + es[i + 1..])
  {
    Around(es, i);
    CatalogueSkipsMiddle(es[..i], es[i], es[i + 1..]);
  }

  /** A sequence is its part before `i`, its `i`th element, and its part after. */
  lemma Around<T>(xs: seq<T>, i: int)
    requires 0 <= i < |xs|
    ensures xs == (xs[..i] + [xs[i]]) + xs[i + 1..]
  {
  }

  /** The catalogue of `a`, a model-less entry, and `b` is that of `a` and `b`. */
  lemma CatalogueSkipsMiddle(a: seq<Entry>, e: Entry, b: seq<Entry>)
    requires e.models == []
    ensures Catalogue((a + [e]) + b) == Catalogue(a + b)
  {
    calc {
      Catalogue((a + [e]) + b);
      { CatalogueAppend(a + [e], b); }
      Catalogue(a + [e]) + Catalogue(b);
      { CatalogueAppend(a, [e]); CatalogueOfEmptyEntry(e); }
      Catalogue(a) + Catalogue(b);
      { CatalogueAppend(a, b); }
      Catalogue(a + b);
    }
  }

  /** A single entry without models has an empty catalogue. */
  lemma CatalogueOfEmptyEntry(e: Entry)
    requires e.models == []
    ensures Catalogue([e]) == []
  {
    assert |Catalogue([e])| == Total([e]);
    assert [e][..0] == [];
  }

  /** With OLLAMA_MODELS unset or empty, Ollama offers no selector. */
  lemma OllamaUnsetOffersNothing(cfg: ModelConfig)
    requires !Truthy(cfg.ollamaModels)
    ensures var es := LlmConfig(cfg);
      LlmProvidersAndModels(cfg) == Catalogue(es[..3] + es[4..])
    ensures forall x :: x in LlmProvidersAndModels(cfg) ==>
      exists p, m :: p != Ollama && m in Models(p, cfg) && x == Label(p, m)
  {
    var es := LlmConfig(cfg);
    CatalogueSkipsEmpty(es, 3);
    forall x | x in LlmProvidersAndModels(cfg)
      ensures exists p, m :: p != Ollama && m in Models(p, cfg) && x == Label(p, m)
    {
      CatalogueMember(es, x);
      var i, j :| 0 <= i < |es| && 0 <= j < |es[i].models| && x == Label(es[i].provider, es[i].models[j]);
      assert es[i].models[j] in Models(es[i].provider, cfg);
    }
  }

  // ---------------------------------------------------------------------
  // create_llm
  // ---------------------------------------------------------------------

  /** The temperature `create_llm` uses when the caller gives none. */
  const DefaultTemperature: Temperature := 0.15

  /**
   * What `create_llm` does after a constructor returns: restore the
   * environment on success; on an exception, leave the state as the
   * constructor left it.
   */
  function Finish(o: Outcome): (r: Outcome)
    ensures r.res == o.res
    ensures o.res.Err? ==> r == o
    ensures o.res.Ok? ==> r.st.snap == o.st.snap && Agrees(r.st)
  {
    if o.res.Ok? then Outcome(Restore(o.st), o.res) else o
  }

  /**
   * `create_llm`: split the selector on `": "` into exactly two parts, look
   * the provider up, construct, restore.
   */
  function CreateLlm(s: State, selector: string, t: Temperature := DefaultTemperature): (o: Outcome)
    ensures Occurrences(selector) != 1 <==> o.res.Err? && o.res.error.UnpackError?
    ensures Occurrences(selector) != 1 ==> o.st == s
    ensures o.res.Err? && o.res.error.UnknownProvider? ==>
      o.st == s && forall p :: Name(p) != o.res.error.name
  {
    var parts := Split(selector, Separator);
    SplitCount(selector);
    if |parts| != 2 then Outcome(s, Err(UnpackError(|parts|)))
    else
      match FindProvider(parts[0])
      case None => Outcome(s, Err(UnknownProvider(parts[0])))
      case Some(p) =>
        ConstructKeepsAgreement(p, s, parts[1], t);
        Finish(Construct(p, s, parts[1], t))
  }

  /**
   * What every `create_llm` call keeps: a returned client leaves the
   * environment showing the snapshot; a reconciled state stays reconciled;
   * a snapshot naming every credential keeps naming them, and then no
   * `KeyError` is ever raised.
   */
  lemma CreateLlmKeepsInvariants(s: State, selector: string, t: Temperature)
    ensures var o := CreateLlm(s, selector, t);
      && (o.res.Ok? ==> Agrees(o.st))
      && (Agrees(s) ==> Agrees(o.st))
      && (WellFormed(s.snap) ==> WellFormed(o.st.snap))
      && (WellFormed(s.snap) ==> !(o.res.Err? && o.res.error.MissingSnapshotKey?))
  {
    var parts := Split(selector, Separator);
    if |parts| == 2 {
      match FindProvider(parts[0]) {
        case None =>
        case Some(p) => ConstructKeepsAgreement(p, s, parts[1], t);
      }
    }
  }

  /**
   * Every constructor either leaves the state alone or switches it, so a
   * reconciled state stays reconciled, and a snapshot naming every
   * credential keeps naming them and never raises `KeyError`.
   */
  lemma ConstructKeepsAgreement(p: Provider, s: State, model: string, t: Temperature)
    ensures var o := Construct(p, s, model, t);
      && (o.res.Err? && o.res.error.UnpackError? ==> false)
      && (o.res.Err? && o.res.error.UnknownProvider? ==> false)
      && (Agrees(s) ==> Agrees(o.st))
      && (o.st.snap.Keys >= s.snap.Keys)
      && (WellFormed(s.snap) ==> !(o.res.Err? && o.res.error.MissingSnapshotKey?))
  {
    var o := Construct(p, s, model, t);
    match p {
      case OpenAI =>
        if OpenAIKey in s.snap && OpenAIBase in s.snap {
          var ov := [(OpenAIKey, s.snap[OpenAIKey]), (OpenAIBase, s.snap[OpenAIBase])];
          PairOverrides(OpenAIKey, s.snap[OpenAIKey], OpenAIBase, s.snap[OpenAIBase]);
          if Agrees(s) { SwitchPreservesAgreement(s, ov); }
        }
      case Anthropic =>
        if AnthropicKey in s.snap && Agrees(s) {
          SwitchPreservesAgreement(s, [(AnthropicKey, s.snap[AnthropicKey])]);
        }
      case Groq =>
        if GroqKey in s.snap && Agrees(s) {
          SwitchPreservesAgreement(s, [(GroqKey, s.snap[GroqKey])]);
        }
      case Google =>
        if GoogleKey in s.snap && Agrees(s) {
          SwitchPreservesAgreement(s, [(GoogleKey, s.snap[GoogleKey])]);
        }
      case Ollama =>
        if OllamaHost in s.snap && Truthy(s.snap[OllamaHost]) && Agrees(s) {
          var host := s.snap[OllamaHost].value;
          SwitchKeyAndBase(s, OllamaSentinel, host);
          SwitchPreservesAgreement(s, [(OpenAIKey, Some(OllamaSentinel)), (OpenAIBase, Some(host))]);
        }
      case LmStudio =>
        if LmStudioBase in s.snap && Agrees(s) {
          var b := s.snap[LmStudioBase];
          if b.Some? {
            SwitchKeyAndBase(s, LmStudioSentinel, b.value);
            SwitchPreservesAgreement(s, [(OpenAIKey, Some(LmStudioSentinel)), (OpenAIBase, b)]);
          } else {
            SwitchKeyOnly(s, LmStudioSentinel);
            SwitchPreservesAgreement(s, [(OpenAIKey, Some(LmStudioSentinel)), (OpenAIBase, None)]);
          }
        }
    }
  }
}

=== FILE: strings.dfy ===
/**
 * Python's `str.split(sep)` with an explicit, non-empty separator, and the
 * facts about splitting on the selector separator `": "` that `create_llm`
 * relies on.
 */
module Strings {

  /** The separator between provider name and model in a selector. */
  const Separator: string := ": "

  /** `sep` occurs in `s` starting at index `i`. */
  predicate MatchesAt(s: string, i: int, sep: string) {
    0 <= i && i + |sep| <= |s| && s[i..i + |sep|] == sep
  }

  /** `sep` occurs somewhere in `s`. */
  predicate Contains(s: string, sep: string) {
    exists i | 0 <= i <= |s| :: MatchesAt(s, i, sep)
  }

  /** `sep.join(parts)`. */
  function Join(parts: seq<string>, sep: string): string
    requires |parts| >= 1
    decreases |parts|
  {
    if |parts| == 1 then parts[0] else parts[0] + sep + Join(parts[1..], sep)
  }

  /** The first part of a join is a prefix of the joined string. */
  lemma JoinPrefix(parts: seq<string>, sep: string)
    requires |parts| >= 1
    ensures |parts[0]| <= |Join(parts, sep)|
    ensures Join(parts, sep)[..|parts[0]|] == parts[0]
  {
  }

  /**
   * Extending a separator-free prefix of `s` by the character before it
   * keeps it separator-free, unless `s` itself starts with the separator.
   */
  lemma ConsKeepsFree(s: string, t: string, sep: string)
    requires |sep| > 0 && |sep| <= |s| && s[..|sep|] != sep
    requires |t| < |s| && s[1..][..|t|] == t
    requires !Contains(t, sep)
    ensures !Contains([s[0]] + t, sep)
  {
    var u := [s[0]] + t;
    assert u == s[..|u|];
    forall k | MatchesAt(u, k, sep)
      ensures false
    {
      // At `k == 0` the match would be the start of `s`, which is excluded.
      if k > 0 {
        assert t[k - 1..k - 1 + |sep|] == u[k..k + |sep|];
        assert MatchesAt(t, k - 1, sep);
      }
    }
  }

  /**
   * `s.split(sep)`: scanning left to right, every occurrence of `sep` that
   * starts where the scan stands ends the current part, so no part contains
   * the separator and joining the parts gives `s` back.
   */
  function Split(s: string, sep: string): (parts: seq<string>)
    requires |sep| > 0
    ensures |parts| >= 1
    ensures Join(parts, sep) == s
    ensures forall i :: 0 <= i < |parts| ==> !Contains(parts[i], sep)
    decreases |s|
  {
    if |s| < |sep| then [s]
    else if s[..|sep|] == sep then
      var rest := Split(s[|sep|..], sep);
      assert s == sep + s[|sep|..];
      [""] + rest
    else
      var rest := Split(s[1..], sep);
      assert s == [s[0]] + s[1..];
      JoinPrefix(rest, sep);
      ConsKeepsFree(s, rest[0], sep);
      [[s[0]] + rest[0]] + rest[1..]
  }

  /** The number of positions at which `": "` starts in `s`. */
  function Occurrences(s: string): nat
    decreases |s|
  {
    if |s| < 2 then 0
    else (if s[..2] == Separator then 1 else 0) + Occurrences(s[1..])
  }

  /** Splitting on `": "` yields one part more than there are separators. */
  lemma {:induction false} SplitCount(s: string)
    ensures |Split(s, Separator)| == Occurrences(s) + 1
    decreases |s|
  {
    if |s| < 2 {
    } else if s[..2] == Separator {
      // `": "` cannot overlap itself: the position after a match is a space.
      if |s| >= 3 {
        assert s[1..][..2] != Separator by { assert s[1..][0] == s[1] == ' '; }
      }
      assert s[1..][1..] == s[2..];
      SplitCount(s[2..]);
    } else {
      SplitCount(s[1..]);
    }
  }

  /** A string without the separator splits into itself. */
  lemma {:induction false} SplitWithoutSeparator(s: string, sep: string)
    requires |sep| > 0
    requires !Contains(s, sep)
    ensures Split(s, sep) == [s]
    decreases |s|
  {
    if |s| >= |sep| {
      assert !MatchesAt(s, 0, sep);
      assert !Contains(s[1..], sep) by {
        forall i | MatchesAt(s[1..], i, sep)
          ensures false
        {
          assert s[1..][i..i + |sep|] == s[i + 1..i + 1 + |sep|];
          assert MatchesAt(s, i + 1, sep);
        }
      }
      SplitWithoutSeparator(s[1..], sep);
      assert [s[0]] + s[1..] == s;
    }
  }

  /** A string without a colon cannot contain `": "`. */
  lemma NoColonNoSeparator(s: string)
    requires ':' !in s
    ensures !Contains(s, Separator)
  {
    forall i | 0 <= i <= |s|
      ensures !MatchesAt(s, i, Separator)
    {
      if i + 2 <= |s| {
        assert s[i] in s;
        assert s[i..i + 2][0] == s[i];
      }
    }
  }

  /**
   * Joining two separator-free strings with `": "` and splitting again gives
   * the two strings back: no new separator can form across either seam.
   */
  lemma {:induction false} SplitPair(p: string, m: string)
    requires !Contains(p, Separator)
    requires !Contains(m, Separator)
    ensures Split(p + Separator + m, Separator) == [p, m]
    decreases |p|
  {
    var s := p + Separator + m;
    if |p| == 0 {
      assert s[..2] == Separator;
      assert s[2..] == m;
      SplitWithoutSeparator(m, Separator);
    } else {
      var p' := p[1..];
      assert !Contains(p', Separator) by {
        forall i | MatchesAt(p', i, Separator)
          ensures false
        {
          assert p'[i..i + 2] == p[i + 1..i + 3];
          assert MatchesAt(p, i + 1, Separator);
        }
      }
      assert s[..2] != Separator by {
        if |p| >= 2 {
          assert s[..2] == p[0..0 + 2];
          assert !MatchesAt(p, 0, Separator);
        } else {
          assert s[1] == ':';
        }
      }
      assert s[1..] == p' + Separator + m;
      SplitPair(p', m);
      assert [s[0]] + p' == p;
    }
  }
}

=== FILE: wrappers.dfy ===
/** Failure-carrying datatypes shared by the other modules. */
module Wrappers {

  /** An optional value: Python's `None` or a present value. */
  datatype Option<+T> = None | Some(value: T)

  /** The value a Python call returns, or the exception it raises. */
  datatype Result<+T, +E> = Ok(value: T) | Err(error: E)
}
